=== FILE: README.md ===
# OCRmyPDF SimpleGUI, modelled in Dafny

OCRmyPDF SimpleGUI is a PyQt window around the `ocrmypdf` library. The user
picks an input PDF by browsing or by dropping it on the window. The window
proposes an output path `<directory>/<stem>_OCRed.pdf`, and the user checks
a few OCR options. "Perform OCR" runs the library on a background worker,
with its standard error captured into an in-memory buffer. When the worker
finishes, the window shows the captured diagnostics. It may then open the
output file and save its settings to a hidden JSON file, which it reads
again at the next start.

The project models the logic underneath the widgets:

- `text.dfy` (`TextOps`): the Python string operations the program uses, each
  with a contract that characterises it (`rfind`, `endswith`, `lower`,
  `replace`, `rstrip`).
- `paths.dfy` (`PathOps`): `posixpath.basename`, `dirname`, `splitext` and
  `join`, and `set_default_output_file`.
- `drop.dfy` (`Drop`): the choice of the dropped file.
- `worker.dfy` (`Worker`): `OCRWorker.run` and `clear_error_buffer`, with
  the capture buffer modelled as an `io.StringIO` (contents and position),
  and the two message formats.
- `settings.dfy` (`Settings`): the eleven-field settings record,
  `save_settings`, `load_settings` and `collect_options`. The JSON file is an
  abstract object.
- `controller.dfy` (`Controller`): the window's state and a transition
  function `Step`. It covers editing, browsing, dropping, toggling, choosing a
  language, clicking "Perform OCR", the worker's completion and closing.
- `wrappers.dfy` (`Wrappers`): `Option`, `Result` and a first-match search.

The Qt thread and its `finished` signal become two events. `ClickOcr`
records the request. A later `WorkerFinished(outcome)` runs the worker on
that request and delivers its result to `ocr_finished`. The external OCR
call is a parameter: its outcome says whether it returned or raised, and
what it wrote to standard error.

In the JSON object, keys are the `Settings.Key` datatype rather than
strings. `Settings.Name` gives each key's text, and `Settings.NameIsInjective`
shows that no two keys share a text. So a map over `Key` stands for the
JSON object restricted to the eleven keys the program reads.

Three behaviours of the code are easy to overlook; the model follows the
code in each:

- Browsing accepts whatever the file dialog returns. Only the dialog's
  filter suggests PDFs, so a non-PDF chosen by browsing does fill the input
  field (`Controller.BrowseForInput`). Only dropping checks the extension.
- The buffer reset comes after the import of `ocrmypdf` inside the `try`.
  An import failure therefore reports whatever the buffer still holds
  (`Worker.ImportFailureReportsStaleCapture`). Python caches a successful
  import, so in practice this needs an import that fails on every run, and
  then nothing was ever captured.
- A settings value of the wrong type makes the widget setter raise. The
  window has already been shown by then, but the exception leaves the
  constructor before the event loop starts, so the program ends with a
  traceback and handles no event. The model reports this as a `LoadError`,
  and `Controller.Init` then gives no window.

## Model

| member | source | states |
|---|---|---|
| `PathOps.Basename` | ocrmypdf_simplegui.py:260 | the result holds no separator and is what follows the input's last separator |
| `PathOps.Dirname` | ocrmypdf_simplegui.py:261 | the result is the part of the path up to its last separator with the trailing separators removed, except that a head made of separators only is kept whole; it is empty exactly when the path has no separator |
| `PathOps.SplitExt` | ocrmypdf_simplegui.py:260 | the two parts concatenate to the path; a non-empty extension starts with the only '.' it holds and holds no separator |
| `PathOps.SplitExtHasExtension` | ocrmypdf_simplegui.py:260 | there is an extension exactly when some '.' of the final component follows a character other than '.', so leading dots never start one |
| `PathOps.Join` | ocrmypdf_simplegui.py:261 | an absolute second component is the result; otherwise the result is the first component, then one separator exactly when the first is non-empty and does not already end in one, then the second |
| `PathOps.JoinSplits` | ocrmypdf_simplegui.py:261 | `dirname` and `basename` of a joined path give back the directory and the name |
| `PathOps.DefaultOutput` | ocrmypdf_simplegui.py:258-262 | the default output holds no backslash and ends in `_OCRed.pdf`, whatever the input |
| `PathOps.JoinedOutput` | ocrmypdf_simplegui.py:260-261 | the joined path before the backslash replacement ends in `_OCRed.pdf` |
| `PathOps.JoinedOutputSameDirectory` | ocrmypdf_simplegui.py:260-261 | for every input, the joined path before the replacement lies in the input's directory and is named `<stem>_OCRed.pdf` |
| `PathOps.DefaultOutputSameDirectory` | ocrmypdf_simplegui.py:258-262 | for an input without backslashes, the default output lies in the input's directory and is named `<stem>_OCRed.pdf` |
| `PathOps.BackslashMovesOutput` | ocrmypdf_simplegui.py:261 | the input `/a/b\c.pdf` lies in `/a`, but its default output is `/a/b/c_OCRed.pdf`, in `/a/b`; the joined path before the replacement stays in `/a` |
| `PathOps.DefaultOutputNoBackslash` | ocrmypdf_simplegui.py:261 | without backslashes in the input, the final replacement leaves the joined path unchanged |
| `PathOps.DefaultOutputExample` | ocrmypdf_simplegui.py:258-262 | `/a/b/doc.pdf` gives `/a/b/doc_OCRed.pdf` |
| `Drop.IsPdfPathLastFour` | ocrmypdf_simplegui.py:344 | a path counts as a PDF exactly when its last four characters are `.pdf` in any letter case |
| `Drop.ScanDrop` | ocrmypdf_simplegui.py:342-348 | the loop with its `break` finds the first PDF path among the dropped ones, or none |
| `Controller.DropFiles` | ocrmypdf_simplegui.py:340-348 | with no PDF among the paths nothing changes; otherwise the chosen path is a PDF, it becomes the input with its default output, and no worker starts or stops |
| `Worker.ClearErrorBuffer` | ocrmypdf_simplegui.py:79-82 | truncating to 0 and seeking to 0 leaves an empty buffer at position 0 |
| `Worker.Write` | ocrmypdf_simplegui.py:69-70 | an empty write changes nothing; otherwise the text lands at the position, which advances by its length, what lay before the position and what lies after the written text are kept, a gap between the end and the position is filled with NULs, and the result is as long as the old contents or reaches the new position, whichever is longer |
| `Worker.TruncateAloneWouldPad` | ocrmypdf_simplegui.py:79-82 | without the seek, the next non-empty write would start with a NUL; with it, the buffer holds exactly what is written |
| `Worker.WriteAllAppends` | ocrmypdf_simplegui.py:69-70 | writes to a buffer positioned at its end append, so after a reset the capture is exactly the text written during the call |
| `Worker.Escape` | ocrmypdf_simplegui.py:72 | after the two replacements no raw space or newline is left |
| `Worker.EscapeEach` | ocrmypdf_simplegui.py:72 | the per-character escaping leaves no raw space or newline and never shortens the text |
| `Worker.EscapeIsPerCharacter` | ocrmypdf_simplegui.py:72 | the two chained `replace` calls equal escaping each character independently |
| `Worker.SuccessMessage` | ocrmypdf_simplegui.py:72-74 | the message is the font tag, the capture with each space and newline escaped independently, the closing tag and the completion notice; the middle holds no raw space or newline |
| `Worker.FailureMessage` | ocrmypdf_simplegui.py:76-77 | the message starts with the error text and is no longer than the error and the capture together |
| `Worker.FailureMessageShape` | ocrmypdf_simplegui.py:76-77 | the failure message is the error text followed by the capture without its trailing newlines: only newlines are dropped, and what is kept does not end in one |
| `Worker.Run` | ocrmypdf_simplegui.py:65-77 | success exactly when the call returned; after the import the buffer holds just this run's output at its end; on success the message is the escaped capture in the font tag followed by the completion notice; on failure it is the error followed by the capture without its trailing newlines, the capture being the old buffer when the import failed |
| `Worker.RunForgetsPreviousBuffer` | ocrmypdf_simplegui.py:68-71 | once the import succeeds, the result does not depend on what the buffer held before |
| `Worker.ImportFailureReportsStaleCapture` | ocrmypdf_simplegui.py:65-77 | when the import fails, text left in the buffer by an earlier run reaches the error message |
| `Settings.NameIsInjective` | ocrmypdf_simplegui.py:352-364 | the eleven JSON keys are pairwise distinct |
| `Settings.Save` | ocrmypdf_simplegui.py:350-364 | the saved object has exactly the eleven keys; the two paths and the language are strings and the eight flags are booleans |
| `Settings.SavedFields` | ocrmypdf_simplegui.py:352-364 | every entry of the saved object holds its widget's value: reading each key back, with the default the loader uses, gives the field that was saved |
| `Settings.SelectLanguage` | ocrmypdf_simplegui.py:382 | the drop-down takes a listed language and keeps its selection for any other text |
| `Settings.Load` | ocrmypdf_simplegui.py:369-384 | a missing file changes nothing; a malformed one is an error; an object loads exactly when every value it holds under the eleven keys has its widget's type, and otherwise fails on the first such key in read order; a listed language stays listed |
| `Settings.LoadSucceedsIffAccepted` | ocrmypdf_simplegui.py:373-384 | loading an object succeeds exactly when every key is absent or holds a value of its widget's type |
| `Settings.LoadReportsFirstRejected` | ocrmypdf_simplegui.py:373-384 | a key of the wrong type with all earlier keys fine is the one the error names |
| `Settings.LoadAccepted` | ocrmypdf_simplegui.py:373-384 | an object every widget accepts loads; each key other than the language gets the value stored under it, or the loader's default ("" for a path, false for a flag) when it is absent; the language is the stored text, or "eng" when absent, passed through the drop-down |
| `Settings.LoadedFields` | ocrmypdf_simplegui.py:373-384 | the same key-by-key statement for the record the eleven setters produce |
| `Settings.LoadEmptyGivesDefaults` | ocrmypdf_simplegui.py:373-384 | an empty object gives both paths empty, all eight flags false and language "eng" |
| `Settings.LoadSaved` | ocrmypdf_simplegui.py:350-384 | loading a saved object restores every field; the language goes through the drop-down |
| `Settings.SaveLoadRoundTrip` | ocrmypdf_simplegui.py:350-384 | save then load gives back all eleven fields when the language is one of the ten listed codes |
| `Settings.SaveLoadUnlistedLanguage` | ocrmypdf_simplegui.py:382 | an unlisted saved language is not restored: the selection stays what it was |
| `Settings.CollectOptions` | ocrmypdf_simplegui.py:298-308 | the OCR options are the seven entries of the saved record other than the two paths, `open_output` and `save_settings`, each with the value it is saved with |
| `Controller.Init` | ocrmypdf_simplegui.py:119-124 | with no file the window is as built; it starts exactly when loading succeeds, showing the loaded fields, with `ocr_performed` false, the button enabled and no busy cursor |
| `Controller.InitEstablishesInv` | ocrmypdf_simplegui.py:119-124 | a started window satisfies the invariant: a worker runs exactly while the button is disabled and the cursor busy, and the language is listed |
| `Controller.SetDefaultOutput` | ocrmypdf_simplegui.py:258-263 | the output field gets the default output of the input; nothing else but the message area changes |
| `Controller.BrowseForInput` | ocrmypdf_simplegui.py:243-249 | a cancelled dialog changes nothing; a chosen file becomes the input with its default output |
| `Controller.BrowseForOutput` | ocrmypdf_simplegui.py:251-256 | a cancelled dialog changes nothing; a chosen file becomes the output |
| `Controller.PerformOcr` | ocrmypdf_simplegui.py:265-280 | with a path empty it reports the error and starts nothing, leaving the button and cursor as they were; otherwise it starts a worker on both paths and the collected options, disables the button and shows the busy cursor |
| `Controller.Finish` | ocrmypdf_simplegui.py:282-296 | the button is enabled and the cursor restored on success and failure alike; `ocr_performed` becomes true on success; the target is opened only on success with "Open output file" checked; the settings are saved when "Save settings" is checked |
| `Controller.SaveSettingsNow` | ocrmypdf_simplegui.py:350-367 | what is written loads back as the window's fields when the language is listed; the message area notes the save; nothing else changes |
| `Controller.OcrFinishedAsWritten` | ocrmypdf_simplegui.py:282-296 | the button is re-enabled and the cursor restored; on success with "Open output file" checked, the viewer gets the path the output field shows at that moment |
| `Controller.OcrFinished` | ocrmypdf_simplegui.py:282-296 | the corrected handler: on success with "Open output file" checked, the viewer gets the file the worker was asked to write |
| `Controller.CorrectionOnlyChangesViewerTarget` | ocrmypdf_simplegui.py:289-290 | the corrected handler and the handler as written differ only in the path handed to the viewer |
| `Controller.CompleteWorker` | ocrmypdf_simplegui.py:282-296 | a completion ends the running worker, re-enables the button, marks OCR performed only when the call returned, on success with the box checked opens the path the output field shows at completion, and saves when asked |
| `Controller.Close` | ocrmypdf_simplegui.py:387-391 | closing saves the settings exactly when "Save settings" is checked, noting the save in the message area, and accepts the event so the window is closed; the fields, the worker, the button, the cursor and the opened files stay as they were |
| `Controller.Step` | ocrmypdf_simplegui.py:243-391 | a closed window ignores every event; the window is closed afterwards exactly when it was or the event is closing; only a completion opens a file or marks OCR performed, only a completion or closing writes the settings file, and only a click or a completion starts or ends a worker |
| `Controller.ClosedWindowIgnoresEvents` | ocrmypdf_simplegui.py:387-391 | once the close event is accepted, no sequence of later events changes anything |
| `Controller.StepPreservesInv` | ocrmypdf_simplegui.py:265-296 | every event keeps the invariant, so at most one worker runs and a running request has both paths |
| `Controller.StepsPreserveInv` | ocrmypdf_simplegui.py:265-296 | every sequence of events keeps the invariant |
| `Controller.ClickIgnoredWhileRunning` | ocrmypdf_simplegui.py:278 | a click while a worker runs changes nothing |
| `Controller.ClickWithMissingPathStartsNothing` | ocrmypdf_simplegui.py:265-272 | a click with a path empty only adds the error message |
| `Controller.OcrPerformedOnlyOnSuccess` | ocrmypdf_simplegui.py:287-291 | after an event `ocr_performed` holds exactly when it held before or the event is a successful completion |
| `Controller.OcrPerformedStays` | ocrmypdf_simplegui.py:291 | nothing resets `ocr_performed` |
| `Controller.OpenOnlyOnSuccess` | ocrmypdf_simplegui.py:287-290 | a file is handed to the viewer exactly on a successful completion with "Open output file" checked, and it is the path the output field shows at that moment |
| `Controller.SavesOnlyWhenAsked` | ocrmypdf_simplegui.py:295-296 | the settings file changes only on a completion or on closing with "Save settings" checked, and what it then holds loads back as the window's fields |
| `Controller.CloseThenRestartRestoresFields` | ocrmypdf_simplegui.py:387-391 | closing with "Save settings" checked and starting again restores every field |
| `Controller.OpenTargetAsWrittenDiverges` | ocrmypdf_simplegui.py:289-290 | editing the output field while a worker runs makes the completion open the edited path, not the file the worker wrote, which the corrected handler opens |

## Left out

- Qt layout, widgets, the About dialog, text colours, keyboard shortcuts and
  the cursor calls: these are presentation. Only the busy flag and the
  button's enabled flag are kept.
- `QThread` and signal delivery: concurrency is replaced by the two events
  `ClickOcr` and `WorkerFinished`.
- The `ocrmypdf.ocr` call: it drives external tools. Its outcome and its
  writes to standard error are a parameter of `Worker.Run`.
- The real settings file and JSON encoding: the file is `Missing`,
  `Malformed` or an abstract object. I/O errors while reading or writing it
  are not modelled, and keys other than the eleven are not represented
  because the program never reads them.
- JSON values other than strings and booleans: one `OtherJson` value stands
  for them. The model assumes the widget setters raise on any value of the
  wrong type; any leniency in PyQt's argument conversion (a JSON number
  handed to a check box, say) is not modelled.
- `os.startfile`, `subprocess.call` and `webbrowser.open`: only the path
  handed to the viewer is recorded (`viewed`). `open_help` and
  `dragEnterEvent` are not modelled.
- Closing the window: `closeEvent` accepts the event, the only window
  closes and the application exits. The model marks the window `closed`, and
  a closed window ignores every later event
  (`Controller.ClosedWindowIgnoresEvents`). What Qt does at exit to a worker
  that is still running is not modelled.
- PathOps.DefaultOutputSameDirectory: requires an input without backslashes,
  because with one the program's replacement can move the output to another
  directory (see "## Findings"); `PathOps.JoinedOutputSameDirectory` states
  the property for every input about the path before the replacement.
- Paths follow `posixpath` with '/' as the separator. The Windows path
  rules, under which `os.path` also splits at '\\', are not modelled.
- `TextOps.Lower`: models `str.lower` on ASCII letters only. For the `.pdf`
  test this is exact, because no other character lowers to '.', 'p', 'd' or
  'f'.

## Findings

| source | as written | input that shows it | evidently intended | confidence | as-written member | corrected member |
|---|---|---|---|---|---|---|
| ocrmypdf_simplegui.py:289-290 | `ocr_finished` opens the path the output field shows when the worker finishes | type `in.pdf` and `out.pdf`, check "Open output file", click "Perform OCR", then change the output field to `other.pdf` before the run ends: the viewer is asked for `other.pdf`, which the worker never wrote | open the file the worker wrote, `out.pdf` | medium; not executed | `Controller.OpenTargetAsWrittenDiverges` | `Controller.OcrFinished` |
| ocrmypdf_simplegui.py:261 | the joined output path has every backslash replaced by '/', which under POSIX paths turns a backslash inside a file name into a separator | the input `/a/b\c.pdf`, a file named `b\c.pdf` in `/a`, gets the default output `/a/b/c_OCRed.pdf`, in `/a/b` | the output beside the input, `/a/b\c_OCRed.pdf` in `/a` | low; not executed | `PathOps.BackslashMovesOutput` | `PathOps.JoinedOutputSameDirectory` |

`PathOps.DefaultOutput` models the path as written, with the replacement,
and `Controller.SetDefaultOutput` uses it. `PathOps.JoinedOutput` is the
path without the replacement, and `PathOps.JoinedOutputSameDirectory` proves
it lies beside the input for every input. The replacement is most likely
aimed at Windows, where `os.path.join` may produce backslashes; the Windows
path rules are not part of this model.

`Controller.OcrFinishedAsWritten` models the handler as written, and
`Controller.Step` runs it on every completion, so the transition function
behaves as the program does. `Controller.OcrFinished` is the corrected
handler, and `Controller.CorrectionOnlyChangesViewerTarget` shows that it
differs from the handler as written only in the path it hands to the viewer.

=== FILE: controller.dfy ===
/** `OCRmyPDFGUI` without its widgets: the state its path fields, check boxes,
    button, cursor and message area hold, and what each user action and the
    worker's completion do to it. Qt's threads and signals are replaced by
    a plain transition: dispatch records the request, and a later
    `WorkerFinished` event runs the worker on it and delivers the result. */
module Controller {
  import opened Wrappers
  import PathOps
  import Drop
  import Worker
  import opened Settings

  /** A line of the message area; `Alert` is what `display_error_message`
      shows in red. */
  datatype Message = Info(text: string) | Alert(text: string)

  /** What a worker is started with. */
  datatype Request = Request(inputFile: string, outputFile: string, options: map<Key, Value>)

  /** The window's state. `viewed` lists the files handed to the platform's
      default viewer, in order; `settingsFile` is the hidden JSON file;
      `closed` records that the window was closed, which ends the program. */
  datatype Gui = Gui(
    fields: Record,
    buttonEnabled: bool,
    busy: bool,
    ocrPerformed: bool,
    inFlight: Option<Request>,
    errorBuffer: Worker.CaptureBuffer,
    settingsFile: SettingsFile,
    log: seq<Message>,
    viewed: seq<string>,
    closed: bool)

  /** The eight check boxes. */
  datatype Flag =
    | DeskewBox | RotatePagesBox | ForceOcrBox | SkipTextBox | RemoveBackgroundBox | CleanFinalBox
    | OpenOutputBox | SaveSettingsBox

  /** What can happen to the window. `WorkerFinished` is the completion of
      the running worker, with the outcome of the external call. */
  datatype Event =
    | EditInput(text: string)
    | EditOutput(text: string)
    | BrowseInput(chosen: string)
    | BrowseOutput(chosen: string)
    | DropPaths(paths: seq<string>)
    | Toggle(flag: Flag)
    | ChooseLanguage(language: string)
    | ClickOcr
    | WorkerFinished(outcome: Worker.CallOutcome)
    | CloseWindow

  const Welcome: string := "Please load an input file."
  const MissingPaths: string := "Please select both input and output files."
  const ErrorPrefix: string := "Error during OCR process: "
  const SettingsSaved: string := "Settings saved.\n"
  const SettingsLoaded: string := "Settings loaded."

  /** The window right after `initUI`, before the settings are loaded. */
  const Built: Gui := Gui(Initial, true, false, false, None, Worker.Fresh, Missing, [Info(Welcome)], [], false)

  /** `__init__`: build the window, then `load_settings` from `file`. A file
      that cannot be loaded raises out of the constructor. */
  function Init(file: SettingsFile): (r: Result<Gui, LoadError>)
    ensures file.Missing? ==> r == Success(Built)
    ensures r.Success? <==> Load(Initial, file).Success?
    ensures r.Success? ==> r.value.fields == Load(Initial, file).value
    ensures r.Success? ==> !r.value.ocrPerformed && r.value.buttonEnabled && !r.value.busy && !r.value.closed
  {
    var fields :- Load(Initial, file);
    var log := if file.Object? then [Info(Welcome), Info(SettingsLoaded)] else [Info(Welcome)];
    Success(Built.(fields := fields, settingsFile := file, log := log))
  }

  /** The invariant the window keeps: a worker is in flight exactly while the
      button is disabled and the busy cursor shows, a running request has
      both paths, the drop-down shows a listed language, and the capture
      buffer's position is at its end. */
  ghost predicate Inv(g: Gui) {
    && (g.inFlight.Some? <==> !g.buttonEnabled)
    && (g.busy <==> g.inFlight.Some?)
    && (g.inFlight.Some? ==> g.inFlight.value.inputFile != "" && g.inFlight.value.outputFile != "")
    && g.fields.language in Languages
    && g.errorBuffer.position == |g.errorBuffer.contents|
  }

  /** True iff `r` agrees with `g` on the parts of the state the invariant
      speaks about. */
  predicate SameControl(g: Gui, r: Gui) {
    && r.inFlight == g.inFlight && r.buttonEnabled == g.buttonEnabled && r.busy == g.busy
    && r.fields.language == g.fields.language && r.errorBuffer == g.errorBuffer
    && r.closed == g.closed
  }

  // ----- Choosing the files -----

  /** True iff `r` differs from `g` at most in the fields and the message
      area: no worker starts or stops, and nothing is saved or opened. */
  predicate OnlyEdits(g: Gui, r: Gui) {
    && SameControl(g, r)
    && r.settingsFile == g.settingsFile && r.ocrPerformed == g.ocrPerformed && r.viewed == g.viewed
  }

  /** `set_default_output_file`. */
  function SetDefaultOutput(g: Gui, input: string): (r: Gui)
    ensures r.fields == g.fields.(outputFile := PathOps.DefaultOutput(input))
    ensures OnlyEdits(g, r)
  {
    var out := PathOps.DefaultOutput(input);
    g.(fields := g.fields.(outputFile := out), log := g.log + [Info("Default output file set to: " + out)])
  }

  /** `select_input_file`, given what the dialog returned ("" on cancel). */
  function BrowseForInput(g: Gui, chosen: string): (r: Gui)
    ensures chosen == "" ==> r == g
    ensures chosen != "" ==> r.fields == g.fields.(inputFile := chosen, outputFile := PathOps.DefaultOutput(chosen))
    ensures OnlyEdits(g, r)
  {
    if chosen == "" then g
    else
      var g' := g.(fields := g.fields.(inputFile := chosen), log := g.log + [Info("Selected input file: " + chosen)]);
      SetDefaultOutput(g', chosen)
  }

  /** `select_output_file`, given what the dialog returned ("" on cancel). */
  function BrowseForOutput(g: Gui, chosen: string): (r: Gui)
    ensures chosen == "" ==> r == g
    ensures chosen != "" ==> r.fields == g.fields.(outputFile := chosen)
    ensures OnlyEdits(g, r)
  {
    if chosen == "" then g
    else g.(fields := g.fields.(outputFile := chosen), log := g.log + [Info("Selected output file: " + chosen)])
  }

  /** `dropEvent`. */
  function DropFiles(g: Gui, paths: seq<string>): (r: Gui)
    ensures Drop.FirstPdf(paths).None? ==> r == g
    ensures Drop.FirstPdf(paths).Some? ==>
      var p := paths[Drop.FirstPdf(paths).value];
      && Drop.IsPdfPath(p)
      && r.fields == g.fields.(inputFile := p, outputFile := PathOps.DefaultOutput(p))
    ensures OnlyEdits(g, r)
  {
    match Drop.FirstPdf(paths)
    case None => g
    case Some(i) =>
      var p := paths[i];
      var g' := g.(fields := g.fields.(inputFile := p), log := g.log + [Info("Dragged and dropped input file: " + p)]);
      SetDefaultOutput(g', p)
  }

  /** A click on one of the check boxes. */
  function ToggleFlag(r: Record, f: Flag): (t: Record)
    ensures t.inputFile == r.inputFile && t.outputFile == r.outputFile && t.language == r.language
  {
    match f
    case DeskewBox => r.(deskew := !r.deskew)
    case RotatePagesBox => r.(rotatePages := !r.rotatePages)
    case ForceOcrBox => r.(forceOcr := !r.forceOcr)
    case SkipTextBox => r.(skipText := !r.skipText)
    case RemoveBackgroundBox => r.(removeBackground := !r.removeBackground)
    case CleanFinalBox => r.(cleanFinal := !r.cleanFinal)
    case OpenOutputBox => r.(openOutput := !r.openOutput)
    case SaveSettingsBox => r.(saveSettings := !r.saveSettings)
  }

  // ----- Running OCR -----

  /** `perform_ocr`: with both paths present, start a worker on them and the
      collected options, disable the button and show the busy cursor;
      otherwise report the missing paths and start nothing. */
  function PerformOcr(g: Gui): (r: Gui)
    ensures (g.fields.inputFile == "" || g.fields.outputFile == "") ==>
      && SameControl(g, r)
      && r.log == g.log + [Alert(MissingPaths)]
    ensures (g.fields.inputFile != "" && g.fields.outputFile != "") ==>
      && r.inFlight == Some(Request(g.fields.inputFile, g.fields.outputFile, CollectOptions(g.fields)))
      && !r.buttonEnabled && r.busy && r.errorBuffer == g.errorBuffer
    ensures r.fields == g.fields && r.ocrPerformed == g.ocrPerformed && r.viewed == g.viewed
    ensures r.settingsFile == g.settingsFile
  {
    if g.fields.inputFile == "" || g.fields.outputFile == "" then
      g.(log := g.log + [Alert(MissingPaths)])
    else
      var request := Request(g.fields.inputFile, g.fields.outputFile, CollectOptions(g.fields));
      g.(inFlight := Some(request), buttonEnabled := false, busy := true)
  }

  /** A click on the OCR button; Qt ignores clicks on a disabled button. */
  function ClickOcrButton(g: Gui): Gui {
    if g.buttonEnabled then PerformOcr(g) else g
  }

  /** `save_settings`: write the fields to the settings file and say so.
      What it writes loads back as the fields whenever the drop-down shows a
      listed language. */
  function SaveSettingsNow(g: Gui): (r: Gui)
    ensures g.fields.language in Languages ==> Load(Initial, r.settingsFile) == Success(g.fields)
    ensures SameControl(g, r) && r.fields == g.fields && r.ocrPerformed == g.ocrPerformed && r.viewed == g.viewed
    ensures r.log == g.log + [Info(SettingsSaved)]
  {
    LoadSaved(Initial, g.fields);
    g.(settingsFile := Object(Save(g.fields)), log := g.log + [Info(SettingsSaved)])
  }

  /** The body of `ocr_finished`, with the path it hands to the viewer as a
      parameter: restore the cursor and the button; on success show the
      message, open `openTarget` if asked to and note that OCR ran; on
      failure show the error; then save the settings if asked to. */
  function Finish(g: Gui, success: bool, message: string, openTarget: string): (r: Gui)
    ensures r.buttonEnabled && !r.busy
    ensures r.fields == g.fields && r.inFlight == g.inFlight && r.errorBuffer == g.errorBuffer
    ensures r.ocrPerformed == (g.ocrPerformed || success)
    ensures r.viewed == if success && g.fields.openOutput then g.viewed + [openTarget] else g.viewed
    ensures success ==> Info(message) in r.log
    ensures !success ==> Alert(ErrorPrefix + message) in r.log
    ensures r.settingsFile == if g.fields.saveSettings then Object(Save(g.fields)) else g.settingsFile
  {
    var g1 := g.(busy := false, buttonEnabled := true);
    var g2 :=
      if success then
        g1.(log := g1.log + [Info(message)],
            viewed := if g1.fields.openOutput then g1.viewed + [openTarget] else g1.viewed,
            ocrPerformed := true)
      else g1.(log := g1.log + [Alert(ErrorPrefix + message)]);
    assert g2.log[|g1.log|] in g2.log;
    if g2.fields.saveSettings then
      var g3 := SaveSettingsNow(g2);
      assert g3.log[..|g2.log|] == g2.log;
      assert g2.log[|g1.log|] == g3.log[|g1.log|];
      g3
    else g2
  }

  /** `ocr_finished` as written: it opens whatever the output field shows
      when the run completes. */
  function OcrFinishedAsWritten(g: Gui, success: bool, message: string): (r: Gui)
    ensures r.buttonEnabled && !r.busy && r.fields == g.fields
    ensures r.viewed == if success && g.fields.openOutput then g.viewed + [g.fields.outputFile] else g.viewed
  {
    Finish(g, success, message, g.fields.outputFile)
  }

  /** `ocr_finished` corrected to open the file the worker was asked to
      write, whatever the output field shows by then. */
  function OcrFinished(g: Gui, request: Request, success: bool, message: string): (r: Gui)
    ensures r.buttonEnabled && !r.busy && r.fields == g.fields
    ensures r.viewed == if success && g.fields.openOutput then g.viewed + [request.outputFile] else g.viewed
  {
    Finish(g, success, message, request.outputFile)
  }

  /** The correction changes nothing but the path handed to the viewer. */
  lemma CorrectionOnlyChangesViewerTarget(g: Gui, request: Request, success: bool, message: string)
    ensures OcrFinished(g, request, success, message)
      == OcrFinishedAsWritten(g, success, message).(viewed := OcrFinished(g, request, success, message).viewed)
  {
  }

  /** The running worker's completion: run it on the in-flight request with
      the shared capture buffer and deliver the result to `ocr_finished` as
      written. Without a worker there is no completion. */
  function CompleteWorker(g: Gui, outcome: Worker.CallOutcome): (r: Gui)
    ensures g.inFlight.None? ==> r == g
    ensures g.inFlight.Some? ==>
      && r.inFlight.None? && r.buttonEnabled && !r.busy
      && r.fields == g.fields
      && r.ocrPerformed == (g.ocrPerformed || outcome.Returned?)
      && r.viewed == (if outcome.Returned? && g.fields.openOutput then g.viewed + [g.fields.outputFile] else g.viewed)
      && r.settingsFile == (if g.fields.saveSettings then Object(Save(g.fields)) else g.settingsFile)
      && (outcome.ImportFailed? ==> r.errorBuffer == g.errorBuffer)
      && (!outcome.ImportFailed? ==> r.errorBuffer.contents == Worker.Concat(outcome.chunks))
      && r.errorBuffer.position == if outcome.ImportFailed? then g.errorBuffer.position else |r.errorBuffer.contents|
  {
    match g.inFlight
    case None => g
    case Some(request) =>
      var c := Worker.Run(g.errorBuffer, outcome);
      OcrFinishedAsWritten(g.(errorBuffer := c.buffer, inFlight := None), c.success, c.message)
  }

  /** `closeEvent`: save the settings if asked to, which also notes the save
      in the message area, then accept the event. The last window closes and
      the program ends; nothing else changes. */
  function Close(g: Gui): (r: Gui)
    ensures r.settingsFile == if g.fields.saveSettings then Object(Save(g.fields)) else g.settingsFile
    ensures r.log == if g.fields.saveSettings then g.log + [Info(SettingsSaved)] else g.log
    ensures r.closed
    ensures SameControl(g.(closed := true), r) && r.fields == g.fields && r.ocrPerformed == g.ocrPerformed && r.viewed == g.viewed
  {
    var g' := if g.fields.saveSettings then SaveSettingsNow(g) else g;
    g'.(closed := true)
  }

  // ----- Transitions -----

  /** What one event does to the window. A closed window has ended the
      program, so nothing changes it any more. Only a completion hands a file
      to the viewer or marks OCR as performed, only a completion or closing
      writes the settings file, only a click or a completion starts or ends
      a worker, and only closing closes the window. */
  function Step(g: Gui, e: Event): (r: Gui)
    ensures g.closed ==> r == g
    ensures r.closed <==> g.closed || e.CloseWindow?
    ensures !e.WorkerFinished? ==> r.viewed == g.viewed && r.ocrPerformed == g.ocrPerformed
    ensures !e.WorkerFinished? && !e.CloseWindow? ==> r.settingsFile == g.settingsFile
    ensures !e.ClickOcr? && !e.WorkerFinished? ==>
      r.inFlight == g.inFlight && r.buttonEnabled == g.buttonEnabled && r.busy == g.busy
  {
    if g.closed then g
    else match e
    case EditInput(text) => g.(fields := g.fields.(inputFile := text))
    case EditOutput(text) => g.(fields := g.fields.(outputFile := text))
    case BrowseInput(chosen) => BrowseForInput(g, chosen)
    case BrowseOutput(chosen) => BrowseForOutput(g, chosen)
    case DropPaths(paths) => DropFiles(g, paths)
    case Toggle(f) => g.(fields := ToggleFlag(g.fields, f))
    case ChooseLanguage(l) => g.(fields := g.fields.(language := SelectLanguage(g.fields.language, l)))
    case ClickOcr => ClickOcrButton(g)
    case WorkerFinished(outcome) => CompleteWorker(g, outcome)
    case CloseWindow => Close(g)
  }

  function Steps(g: Gui, es: seq<Event>): Gui
    decreases |es|
  {
    if |es| == 0 then g else Steps(Step(g, es[0]), es[1..])
  }

  /** True iff `e` is the completion of a worker that succeeded. */
  predicate SuccessfulCompletion(g: Gui, e: Event) {
    !g.closed && e.WorkerFinished? && g.inFlight.Some? && e.outcome.Returned?
  }

  /** True iff `e` is one of the two events after which the settings are
      saved when "Save settings" is checked. */
  predicate SavePoint(g: Gui, e: Event) {
    !g.closed && ((e.WorkerFinished? && g.inFlight.Some?) || e.CloseWindow?)
  }

  /** Every event other than a completion, a click on the enabled button or
      closing the window only edits the fields. */
  lemma EditsOnly(g: Gui, e: Event)
    requires !e.WorkerFinished? && !e.CloseWindow? && !(e.ClickOcr? && g.buttonEnabled)
    requires !e.ChooseLanguage?
    ensures OnlyEdits(g, Step(g, e))
  {
    match e
    case EditInput(_) =>
    case EditOutput(_) =>
    case BrowseInput(_) =>
    case BrowseOutput(_) =>
    case DropPaths(_) =>
    case Toggle(_) =>
    case ClickOcr =>
  }

  // ----- Properties -----

  /** A freshly started window satisfies the invariant. */
  lemma InitEstablishesInv(file: SettingsFile)
    requires Init(file).Success?
    ensures Inv(Init(file).value)
  {
    assert Initial.language in Languages;
  }

  /** Every event keeps the invariant. */
  lemma StepPreservesInv(g: Gui, e: Event)
    requires Inv(g)
    ensures Inv(Step(g, e))
  {
    match e
    case ChooseLanguage(l) =>
    case ClickOcr =>
      if !g.buttonEnabled {
        EditsOnly(g, e);
      }
    case WorkerFinished(outcome) =>
    case CloseWindow =>
    case _ =>
      EditsOnly(g, e);
  }

  lemma {:induction false} StepsPreserveInv(g: Gui, es: seq<Event>)
    requires Inv(g)
    ensures Inv(Steps(g, es))
    decreases |es|
  {
    if |es| > 0 {
      StepPreservesInv(g, es[0]);
      StepsPreserveInv(Step(g, es[0]), es[1..]);
    }
  }

  /** Once the window is closed the program has ended: no sequence of
      events changes anything, so a running worker's completion is never
      delivered and nothing is saved or opened after closing. */
  lemma {:induction false} ClosedWindowIgnoresEvents(g: Gui, es: seq<Event>)
    requires g.closed
    ensures Steps(g, es) == g
    decreases |es|
  {
    if |es| > 0 {
      assert Step(g, es[0]) == g;
      ClosedWindowIgnoresEvents(g, es[1..]);
    }
  }

  /** A click while a worker runs does nothing, so at most one runs. */
  lemma ClickIgnoredWhileRunning(g: Gui)
    requires Inv(g) && g.inFlight.Some?
    ensures Step(g, ClickOcr) == g
  {
  }

  /** A click with an empty path reports the error and starts nothing. */
  lemma ClickWithMissingPathStartsNothing(g: Gui)
    requires Inv(g) && g.inFlight.None? && !g.closed
    requires g.fields.inputFile == "" || g.fields.outputFile == ""
    ensures Step(g, ClickOcr) == g.(log := g.log + [Alert(MissingPaths)])
    ensures Step(g, ClickOcr).buttonEnabled && !Step(g, ClickOcr).busy
  {
  }

  /** `ocr_performed` becomes true exactly on a successful completion, and
      nothing makes it false again. */
  lemma OcrPerformedOnlyOnSuccess(g: Gui, e: Event)
    ensures Step(g, e).ocrPerformed <==> g.ocrPerformed || SuccessfulCompletion(g, e)
  {
    match e
    case ChooseLanguage(l) =>
    case ClickOcr =>
      if !g.buttonEnabled {
        EditsOnly(g, e);
      }
    case WorkerFinished(outcome) =>
    case CloseWindow =>
    case _ =>
      EditsOnly(g, e);
  }

  lemma {:induction false} OcrPerformedStays(g: Gui, es: seq<Event>)
    requires g.ocrPerformed
    ensures Steps(g, es).ocrPerformed
    decreases |es|
  {
    if |es| > 0 {
      OcrPerformedOnlyOnSuccess(g, es[0]);
      OcrPerformedStays(Step(g, es[0]), es[1..]);
    }
  }

  /** A file is handed to the viewer only on a successful completion with
      "Open output file" checked, and it is the path the output field shows
      at that moment. */
  lemma OpenOnlyOnSuccess(g: Gui, e: Event)
    ensures Step(g, e).viewed ==
      if SuccessfulCompletion(g, e) && g.fields.openOutput then g.viewed + [g.fields.outputFile]
      else g.viewed
  {
    match e
    case ChooseLanguage(l) =>
    case ClickOcr =>
      if !g.buttonEnabled {
        EditsOnly(g, e);
      }
    case WorkerFinished(outcome) =>
    case CloseWindow =>
    case _ =>
      EditsOnly(g, e);
  }

  /** The settings file is written only after a completion or on closing,
      and only with "Save settings" checked; what it then holds loads back
      as the window's fields. */
  lemma SavesOnlyWhenAsked(g: Gui, e: Event)
    requires Inv(g)
    ensures Step(g, e).settingsFile != g.settingsFile ==> g.fields.saveSettings && SavePoint(g, e)
    ensures g.fields.saveSettings && SavePoint(g, e) ==> Load(Initial, Step(g, e).settingsFile) == Success(g.fields)
  {
    match e
    case ChooseLanguage(l) =>
    case ClickOcr =>
      if !g.buttonEnabled {
        EditsOnly(g, e);
      }
    case WorkerFinished(outcome) =>
      if !g.closed && g.inFlight.Some? && g.fields.saveSettings {
        assert Step(g, e).settingsFile == Object(Save(g.fields));
        SaveLoadRoundTrip(Initial, g.fields);
      }
    case CloseWindow =>
      if !g.closed && g.fields.saveSettings {
        assert Step(g, e).settingsFile == Object(Save(g.fields));
        SaveLoadRoundTrip(Initial, g.fields);
      }
    case _ =>
      EditsOnly(g, e);
  }

  /** The close event on an open window runs `closeEvent`. */
  lemma ClosingIsClose(g: Gui)
    requires !g.closed
    ensures Step(g, CloseWindow) == Close(g)
  {
  }

  /** A completion event in an open window runs the worker and
      `ocr_finished`. */
  lemma CompletionIsCompleteWorker(g: Gui, outcome: Worker.CallOutcome)
    requires !g.closed
    ensures Step(g, WorkerFinished(outcome)) == CompleteWorker(g, outcome)
  {
  }

  /** A file that loads starts a window showing what it loads. */
  lemma InitShowsLoaded(file: SettingsFile, s: Record)
    requires Load(Initial, file) == Success(s)
    ensures Init(file).Success? && Init(file).value.fields == s
  {
  }

  /** Closing with "Save settings" checked and starting again restores every
      field of the window. */
  lemma CloseThenRestartRestoresFields(g: Gui)
    requires Inv(g) && g.fields.saveSettings && !g.closed
    ensures Init(Step(g, CloseWindow).settingsFile).Success?
    ensures Init(Step(g, CloseWindow).settingsFile).value.fields == g.fields
  {
    var f := Close(g).settingsFile;
    ClosingIsClose(g);
    assert f == SaveSettingsNow(g).settingsFile;
    InitShowsLoaded(f, g.fields);
  }

  /** The events before the completion in `OpenTargetAsWrittenDiverges`:
      a worker is started on `out.pdf`, and the output field is then changed
      to `other.pdf`. */
  const EditDuringRun: seq<Event> :=
    [EditInput("in.pdf"), EditOutput("out.pdf"), Toggle(OpenOutputBox), ClickOcr, EditOutput("other.pdf")]

  /** The state those events lead to. */
  lemma EditDuringRunState()
    ensures var g := Steps(Built, EditDuringRun);
      && g.inFlight.Some? && g.inFlight.value.outputFile == "out.pdf"
      && g.fields.outputFile == "other.pdf" && g.fields.openOutput && g.viewed == [] && !g.closed
  {
    EditDuringRunUnrolls();
    var g4 := Step(Step(Step(Step(Built, EditInput("in.pdf")), EditOutput("out.pdf")), Toggle(OpenOutputBox)), ClickOcr);
    assert g4.inFlight.Some? && g4.inFlight.value.outputFile == "out.pdf" && g4.fields.openOutput && g4.viewed == [] && !g4.closed;
  }

  /** Running `EditDuringRun` is applying its five events in turn. */
  lemma EditDuringRunUnrolls()
    ensures Steps(Built, EditDuringRun) ==
      Step(Step(Step(Step(Step(Built, EditInput("in.pdf")), EditOutput("out.pdf")), Toggle(OpenOutputBox)), ClickOcr), EditOutput("other.pdf"))
  {
    var g1 := Step(Built, EditInput("in.pdf"));
    var g2 := Step(g1, EditOutput("out.pdf"));
    var g3 := Step(g2, Toggle(OpenOutputBox));
    var g4 := Step(g3, ClickOcr);
    var g5 := Step(g4, EditOutput("other.pdf"));
    assert Steps(g5, []) == g5;
    assert EditDuringRun[1..] == [EditOutput("out.pdf"), Toggle(OpenOutputBox), ClickOcr, EditOutput("other.pdf")];
    assert EditDuringRun[1..][1..] == [Toggle(OpenOutputBox), ClickOcr, EditOutput("other.pdf")];
    assert EditDuringRun[1..][1..][1..] == [ClickOcr, EditOutput("other.pdf")];
    assert EditDuringRun[1..][1..][1..][1..] == [EditOutput("other.pdf")];
    assert EditDuringRun[1..][1..][1..][1..][1..] == [];
  }

  /** The discrepancy of `ocr_finished` as written: the output field can be
      edited while a worker runs, and the completion then opens the edited
      path instead of the file the worker wrote, which the corrected handler
      opens. */
  lemma OpenTargetAsWrittenDiverges()
    ensures var g := Steps(Built, EditDuringRun);
      && g.inFlight.Some? && g.inFlight.value.outputFile == "out.pdf"
      && Step(g, WorkerFinished(Worker.Returned([]))).viewed == ["other.pdf"]
      && OcrFinished(g, g.inFlight.value, true, "done").viewed == ["out.pdf"]
  {
    EditDuringRunState();
    var g := Steps(Built, EditDuringRun);
    CompletionIsCompleteWorker(g, Worker.Returned([]));
  }
}

=== FILE: drop.dfy ===
/** `dropEvent`: of the paths dropped on the window, the first whose
    lower-cased form ends in ".pdf" becomes the input; the rest are ignored. */
module Drop {
  import opened Wrappers
  import opened TextOps

  const PdfExtension: string := ".pdf"

  /** `file_path.lower().endswith('.pdf')`. */
  predicate IsPdfPath(p: string) {
    EndsWith(Lower(p), PdfExtension)
  }

  /** The test looks at the last four characters only, ignoring letter case. */
  lemma IsPdfPathLastFour(p: string)
    ensures IsPdfPath(p) <==>
      && |p| >= 4
      && p[|p| - 4] == '.'
      && (p[|p| - 3] == 'p' || p[|p| - 3] == 'P')
      && (p[|p| - 2] == 'd' || p[|p| - 2] == 'D')
      && (p[|p| - 1] == 'f' || p[|p| - 1] == 'F')
  {
    var l := Lower(p);
    if |p| >= 4 {
      var t := l[|l| - 4..];
      assert t[0] == l[|p| - 4] && t[1] == l[|p| - 3] && t[2] == l[|p| - 2] && t[3] == l[|p| - 1];
      assert IsPdfPath(p) <==> t[0] == '.' && t[1] == 'p' && t[2] == 'd' && t[3] == 'f';
    }
  }

  /** The index of the first PDF path among the dropped ones, if any. */
  function FirstPdf(paths: seq<string>): Option<nat> {
    FirstMatch(paths, IsPdfPath)
  }

  /** The loop of `dropEvent` over the dropped URLs, stopping at the first
      match as the `break` does. */
  method ScanDrop(paths: seq<string>) returns (r: Option<nat>)
    ensures r == FirstPdf(paths)
  {
    var i := 0;
    while i < |paths|
      invariant 0 <= i <= |paths|
      invariant forall j :: 0 <= j < i ==> !IsPdfPath(paths[j])
    {
      if IsPdfPath(paths[i]) {
        FirstMatchIsFirst(paths, IsPdfPath, i);
        return Some(i);
      }
      i := i + 1;
    }
    return None;
  }
}

=== FILE: paths.dfy ===
/** Python's `posixpath` functions the program uses (`basename`, `dirname`,
    `splitext`, `join`), and `set_default_output_file`, which derives the
    default output path `<directory>/<stem>_OCRed.pdf` from an input path.
    The separator is '/'; a backslash is an ordinary character until the
    final replacement turns every backslash into '/'. */
module PathOps {
  import opened TextOps

  const Sep: char := '/'
  const ExtSep: char := '.'
  const Backslash: char := '\\'

  /** The marker and extension appended to the stem of the input. */
  const OutputSuffix: string := "_OCRed.pdf"

  /** Everything up to and including the last separator. */
  function Head(p: string): string {
    p[..LastIndexOf(p, Sep) + 1]
  }

  /** `os.path.basename`: what follows the last separator. */
  function Basename(p: string): (r: string)
    ensures Sep !in r
    ensures |r| <= |p| && p == Head(p) + r
    ensures Head(p) == "" || Head(p)[|Head(p)| - 1] == Sep
  {
    var i := LastIndexOf(p, Sep) + 1;
    assert p == p[..i] + p[i..];
    p[i..]
  }

  /** `os.path.dirname`: the head without its trailing separators, unless
      the head consists of separators only. */
  function Dirname(p: string): (r: string)
    ensures StartsWith(p, r)
    ensures Sep in p ==> StartsWith(Head(p), r) && AllChars(Head(p)[|r|..], Sep)
    ensures AllChars(Head(p), Sep) ==> r == Head(p)
    ensures r == "" <==> Sep !in p
    ensures r == "" || AllChars(r, Sep) || r[|r| - 1] != Sep
  {
    var head := Head(p);
    assert Sep in p ==> LastIndexOf(p, Sep) >= 0 && head[|head| - 1] == Sep;
    if head != "" && !AllChars(head, Sep) then
      RStrip(head, Sep)
    else head
  }

  /** `os.path.splitext`: splits at the last '.' after the last separator,
      except that dots leading the final component do not start an
      extension. */
  function SplitExt(p: string): (r: (string, string))
    ensures r.0 + r.1 == p
    ensures r.1 == "" || (r.1[0] == ExtSep && forall k :: 1 <= k < |r.1| ==> r.1[k] != ExtSep && r.1[k] != Sep)
  {
    var sepIndex := LastIndexOf(p, Sep);
    var dotIndex := LastIndexOf(p, ExtSep);
    if dotIndex > sepIndex && !AllChars(p[sepIndex + 1..dotIndex], ExtSep) then
      TailAfterLastDot(p, sepIndex, dotIndex);
      (p[..dotIndex], p[dotIndex..])
    else
      assert p + "" == p;
      (p, "")
  }

  /** A step of `SplitExt`: cutting at the last '.', itself after the last
      separator, leaves a tail that starts with that '.' and holds no other
      '.' and no separator. */
  lemma TailAfterLastDot(p: string, sepIndex: int, dotIndex: int)
    requires -1 <= sepIndex < dotIndex < |p| && p[dotIndex] == ExtSep
    requires forall k :: dotIndex < k < |p| ==> p[k] != ExtSep
    requires forall k :: sepIndex < k < |p| ==> p[k] != Sep
    ensures p[..dotIndex] + p[dotIndex..] == p
    ensures p[dotIndex..][0] == ExtSep
    ensures forall k :: 1 <= k < |p[dotIndex..]| ==> p[dotIndex..][k] != ExtSep && p[dotIndex..][k] != Sep
  {
    assert p == p[..dotIndex] + p[dotIndex..];
    forall k | 1 <= k < |p[dotIndex..]|
      ensures p[dotIndex..][k] != ExtSep && p[dotIndex..][k] != Sep
    {
      assert p[dotIndex..][k] == p[dotIndex + k];
    }
  }

  /** True iff the '.' at index `j` of `p` is preceded, within the final
      component, by some character other than '.'. */
  predicate DotAfterName(p: string, j: int)
    requires 0 <= j < |p|
  {
    var sepIndex := LastIndexOf(p, Sep);
    p[j] == ExtSep && sepIndex < j && !AllChars(p[sepIndex + 1..j], ExtSep)
  }

  /** A '.' preceded by a name character means the last '.' is one too. */
  lemma LastDotAfterName(p: string, j: int)
    requires 0 <= j < |p| && DotAfterName(p, j)
    ensures LastIndexOf(p, ExtSep) > LastIndexOf(p, Sep)
    ensures !AllChars(p[LastIndexOf(p, Sep) + 1..LastIndexOf(p, ExtSep)], ExtSep)
  {
    var sepIndex := LastIndexOf(p, Sep);
    var dotIndex := LastIndexOf(p, ExtSep);
    assert j <= dotIndex;
    NotAllCharsWiden(p, sepIndex + 1, j, dotIndex, ExtSep);
  }

  /** A slice holding a character other than `c` keeps it when widened. */
  lemma NotAllCharsWiden(p: string, lo: int, mid: int, hi: int, c: char)
    requires 0 <= lo <= mid <= hi <= |p|
    requires !AllChars(p[lo..mid], c)
    ensures !AllChars(p[lo..hi], c)
  {
    var k :| 0 <= k < mid - lo && p[lo..mid][k] != c;
    assert p[lo..hi][k] == p[lo + k] == p[lo..mid][k];
  }

  /** There is an extension exactly when some '.' of the final component has
      a character other than '.' before it. */
  lemma SplitExtHasExtension(p: string)
    ensures SplitExt(p).1 != "" <==> exists j :: 0 <= j < |p| && DotAfterName(p, j)
  {
    var sepIndex := LastIndexOf(p, Sep);
    var dotIndex := LastIndexOf(p, ExtSep);
    if dotIndex > sepIndex && !AllChars(p[sepIndex + 1..dotIndex], ExtSep) {
      assert DotAfterName(p, dotIndex);
    } else {
      forall j | 0 <= j < |p| && DotAfterName(p, j)
        ensures false
      {
        LastDotAfterName(p, j);
      }
    }
  }

  /** The base name without its extension: `os.path.splitext(os.path.basename(p))[0]`. */
  function Stem(p: string): string {
    SplitExt(Basename(p)).0
  }

  /** `os.path.join(a, b)` for two components. */
  function Join(a: string, b: string): (r: string)
    ensures EndsWith(r, b)
    ensures StartsWith(b, [Sep]) ==> r == b
    ensures !StartsWith(b, [Sep]) ==>
      && StartsWith(r, a)
      && (|r| == |a| + |b| || |r| == |a| + |b| + 1)
      && (|r| == |a| + |b| + 1 <==> a != "" && a[|a| - 1] != Sep)
    ensures |r| == |a| + |b| + 1 ==> r[|a|] == Sep
  {
    if StartsWith(b, [Sep]) then b
    else if a == "" || a[|a| - 1] == Sep then a + b
    else a + [Sep] + b
  }

  /** The input's directory joined with `<stem>_OCRed.pdf`: the default
      output before the backslash replacement. */
  function JoinedOutput(input: string): (r: string)
    ensures EndsWith(r, OutputSuffix)
  {
    var r := Join(Dirname(input), Stem(input) + OutputSuffix);
    EndsWithConcat(r, Stem(input), OutputSuffix);
    r
  }

  /** Without the replacement, the output lies in the input's directory and
      is named `<stem>_OCRed.pdf`, for every input. */
  lemma JoinedOutputSameDirectory(input: string)
    ensures Dirname(JoinedOutput(input)) == Dirname(input)
    ensures Basename(JoinedOutput(input)) == Stem(input) + OutputSuffix
  {
    var b := Basename(input);
    var stem := Stem(input);
    assert b == stem + SplitExt(b).1;
    assert Sep !in stem by {
      forall k | 0 <= k < |stem|
        ensures stem[k] != Sep
      {
        assert stem[k] == b[k];
      }
    }
    var name := stem + OutputSuffix;
    assert Sep !in name;
    JoinSplits(Dirname(input), name);
  }

  /** `set_default_output_file`: the default output path for an input. It
      holds no backslash and ends in the fixed suffix. */
  function DefaultOutput(input: string): (r: string)
    ensures Backslash !in r
    ensures EndsWith(r, OutputSuffix)
  {
    var joined := JoinedOutput(input);
    SuffixHasNoBackslash();
    ReplaceAllKeepsSuffix(joined, OutputSuffix, Backslash, [Sep]);
    ReplaceAll(joined, Backslash, [Sep])
  }

  lemma SuffixHasNoBackslash()
    ensures Backslash !in OutputSuffix && Backslash !in [Sep]
  {
  }

  /** Splitting a joined path gives back its parts: a directory as `dirname`
      returns it, joined with a name that holds no separator. */
  lemma JoinSplits(d: string, n: string)
    requires d == "" || AllChars(d, Sep) || d[|d| - 1] != Sep
    requires n != "" && Sep !in n
    ensures Dirname(Join(d, n)) == d
    ensures Basename(Join(d, n)) == n
  {
    var j := Join(d, n);
    assert !StartsWith(n, [Sep]) by {
      assert n[0] != Sep;
    }
    if d == "" {
      assert j == n;
      assert LastIndexOf(j, Sep) == -1;
      assert Head(j) == "";
    } else if d[|d| - 1] == Sep {
      assert j == d + n;
      LastIndexOfAppend(d, n, Sep);
      assert LastIndexOf(d, Sep) == |d| - 1;
      assert Head(j) == d;
    } else {
      assert j == (d + [Sep]) + n;
      LastIndexOfAppend(d + [Sep], n, Sep);
      assert LastIndexOf(d + [Sep], Sep) == |d|;
      assert Head(j) == d + [Sep];
      assert !AllChars(d + [Sep], Sep) by {
        assert (d + [Sep])[|d| - 1] != Sep;
      }
      assert (d + [Sep])[..|d|] == d;
      assert RStrip(d + [Sep], Sep) == RStrip(d, Sep) == d;
    }
  }

  /** For an input without backslashes, the default output lies in the
      input's directory and is named `<stem>_OCRed.pdf`. */
  lemma DefaultOutputSameDirectory(input: string)
    requires Backslash !in input
    ensures Dirname(DefaultOutput(input)) == Dirname(input)
    ensures Basename(DefaultOutput(input)) == Stem(input) + OutputSuffix
  {
    DefaultOutputNoBackslash(input);
    JoinedOutputSameDirectory(input);
  }

  /** Without backslashes in the input the final replacement has nothing to
      do: the default output is the plain join. */
  lemma DefaultOutputNoBackslash(input: string)
    requires Backslash !in input
    ensures DefaultOutput(input) == JoinedOutput(input)
  {
    PartsHaveNoBackslash(input);
    var name := Stem(input) + OutputSuffix;
    assert Backslash !in name;
    JoinKeepsAbsent(Dirname(input), name, Backslash);
  }

  /** The directory and the stem of a path are cut from it, so they hold no
      character the path lacks. */
  lemma PartsHaveNoBackslash(input: string)
    requires Backslash !in input
    ensures Backslash !in Dirname(input) && Backslash !in Stem(input)
  {
    var d := Dirname(input);
    var b := Basename(input);
    var stem := Stem(input);
    assert d == input[..|d|];
    SliceKeepsAbsent(input, 0, |d|, Backslash);
    assert b == input[|input| - |b|..];
    SliceKeepsAbsent(input, |input| - |b|, |input|, Backslash);
    assert b == stem + SplitExt(b).1;
    assert stem == b[..|stem|];
    SliceKeepsAbsent(b, 0, |stem|, Backslash);
  }

  /** A slice holds no character its string lacks. */
  lemma SliceKeepsAbsent(s: string, lo: int, hi: int, c: char)
    requires 0 <= lo <= hi <= |s| && c !in s
    ensures c !in s[lo..hi]
  {
    forall k | 0 <= k < hi - lo
      ensures s[lo..hi][k] != c
    {
      assert s[lo..hi][k] == s[lo + k];
    }
  }

  /** Joining adds no character but the separator. */
  lemma JoinKeepsAbsent(a: string, b: string, ch: char)
    requires ch !in a && ch !in b && ch != Sep
    ensures ch !in Join(a, b)
  {
    if !StartsWith(b, [Sep]) && a != "" && a[|a| - 1] != Sep {
      assert Join(a, b) == a + [Sep] + b;
    }
  }

  /** An example: an input in `/a/b` gets its output beside it. */
  lemma DefaultOutputExample()
    ensures DefaultOutput("/a/b/doc.pdf") == "/a/b/doc_OCRed.pdf"
  {
    JoinInserts("/a/b", "doc" + OutputSuffix, "/a/b/doc_OCRed.pdf");
    var p := "/a/b/doc.pdf";
    ExampleStem(p);
    ExampleDirname(p);
    ExampleNoBackslash(p);
    DefaultOutputNoBackslash(p);
  }

  /** A step of both examples: joining a name that does not start with a
      separator onto a directory that does not end in one inserts one. */
  lemma JoinInserts(d: string, name: string, r: string)
    requires d != "" && d[|d| - 1] != Sep && name != "" && name[0] != Sep
    requires r == d + [Sep] + name
    ensures Join(d, name) == r
  {
    assert !StartsWith(name, [Sep]);
  }

  /** A step of `DefaultOutputExample` on its one input: the stem. */
  lemma ExampleStem(p: string)
    requires p == "/a/b/doc.pdf"
    ensures Stem(p) == "doc"
  {
    ExampleBasename(p);
    ExampleSplitExt("doc.pdf");
  }

  /** A step of `DefaultOutputExample` on its one input: the base name. */
  lemma ExampleBasename(p: string)
    requires p == "/a/b/doc.pdf"
    ensures Basename(p) == "doc.pdf"
  {
    assert LastIndexOf(p, Sep) == 4 by {
      assert p[4] == Sep;
      assert forall k :: 4 < k < |p| ==> p[k] != Sep;
    }
  }

  /** A step of `DefaultOutputExample` on its one input: the split of the base name. */
  lemma ExampleSplitExt(b: string)
    requires b == "doc.pdf"
    ensures SplitExt(b) == ("doc", ".pdf")
  {
    ExampleLastIndexes(b);
    assert !AllChars(b[0..3], ExtSep) by {
      assert b[0..3][0] == 'd';
    }
    ExampleSlices(b);
  }

  /** A step of `DefaultOutputExample` on its one input: the last separator and dot of the base name. */
  lemma ExampleLastIndexes(b: string)
    requires b == "doc.pdf"
    ensures LastIndexOf(b, Sep) == -1
    ensures LastIndexOf(b, ExtSep) == 3
  {
    assert b[3] == ExtSep;
    assert forall k :: 3 < k < |b| ==> b[k] != ExtSep;
  }

  /** A step of `DefaultOutputExample` on its one input: the two parts of the base name. */
  lemma ExampleSlices(b: string)
    requires b == "doc.pdf"
    ensures b[..3] == "doc" && b[3..] == ".pdf"
  {
  }

  /** A step of `DefaultOutputExample` on its one input: the input holds no backslash. */
  lemma ExampleNoBackslash(p: string)
    requires p == "/a/b/doc.pdf"
    ensures Backslash !in p
  {
  }

  /** A step of `DefaultOutputExample` on its one input: the directory. */
  lemma ExampleDirname(p: string)
    requires p == "/a/b/doc.pdf"
    ensures Dirname(p) == "/a/b"
  {
    assert LastIndexOf(p, Sep) == 4 by {
      assert p[4] == Sep;
      assert forall k :: 4 < k < |p| ==> p[k] != Sep;
    }
    assert Head(p) == "/a/b/";
    assert "/a/b/"[1] != Sep;
    assert RStrip("/a/b/", Sep) == "/a/b";
  }

  // ----- A backslash inside a file name -----

  /** A POSIX file name may hold a backslash, and the final replacement of
      `set_default_output_file` turns it into a separator. The input
      `/a/b\c.pdf` names the file `b\c.pdf` in `/a`, but its default output
      lands in `/a/b`; the plain join keeps it in `/a`. */
  lemma BackslashMovesOutput()
    ensures Dirname("/a/b\\c.pdf") == "/a"
    ensures DefaultOutput("/a/b\\c.pdf") == "/a/b/c_OCRed.pdf"
    ensures Dirname(DefaultOutput("/a/b\\c.pdf")) == "/a/b"
    ensures Dirname(JoinedOutput("/a/b\\c.pdf")) == "/a"
  {
    JoinInserts("/a", "b\\c" + OutputSuffix, "/a/b\\c_OCRed.pdf");
    var p := "/a/b\\c.pdf";
    BackslashDirname(p);
    BackslashStem(p);
    BackslashReplace("/a/b\\c_OCRed.pdf");
    BackslashOutputDirname("/a/b/c_OCRed.pdf");
    JoinedOutputSameDirectory(p);
  }

  /** A step of `BackslashMovesOutput`: the last separator of the input. */
  lemma BackslashLastSep(p: string)
    requires p == "/a/b\\c.pdf"
    ensures LastIndexOf(p, Sep) == 2
  {
    assert p[2] == Sep;
    assert forall k :: 2 < k < |p| ==> p[k] != Sep;
  }

  /** A step of `BackslashMovesOutput`: the input's directory. */
  lemma BackslashDirname(p: string)
    requires p == "/a/b\\c.pdf"
    ensures Dirname(p) == "/a"
  {
    BackslashLastSep(p);
    assert Head(p) == "/a/";
    assert "/a/"[1] != Sep;
    assert RStrip("/a/", Sep) == "/a";
  }

  /** A step of `BackslashMovesOutput`: the input's stem. */
  lemma BackslashStem(p: string)
    requires p == "/a/b\\c.pdf"
    ensures Stem(p) == "b\\c"
  {
    BackslashLastSep(p);
    var b := Basename(p);
    assert b == "b\\c.pdf";
    assert b[3] == ExtSep;
    assert forall k :: 3 < k < |b| ==> b[k] != ExtSep;
    assert forall k :: 0 <= k < |b| ==> b[k] != Sep;
    assert LastIndexOf(b, Sep) == -1;
    assert LastIndexOf(b, ExtSep) == 3;
    assert !AllChars(b[0..3], ExtSep) by {
      assert b[0..3][0] == 'b';
    }
    assert b[..3] == "b\\c";
  }

  /** A step of `BackslashMovesOutput`: the replacement turns the backslash
      into a separator. */
  lemma BackslashReplace(s: string)
    requires s == "/a/b\\c_OCRed.pdf"
    ensures ReplaceAll(s, Backslash, [Sep]) == "/a/b/c_OCRed.pdf"
  {
    var front := "/a/b";
    var back := "c_OCRed.pdf";
    assert s == front + ([Backslash] + back);
    assert Backslash !in front && Backslash !in back;
    ReplaceOnce(front, back, Backslash, [Sep]);
    BackslashReplaced(front, back);
  }

  /** A step of `BackslashReplace` and `BackslashOutputDirname`: the output
      path as its directory, a separator and its name. */
  lemma BackslashReplaced(front: string, back: string)
    requires front == "/a/b" && back == "c_OCRed.pdf"
    ensures front + ([Sep] + back) == "/a/b/c_OCRed.pdf"
  {
  }

  /** Replacing the one `c` between two `c`-free parts. */
  lemma ReplaceOnce(front: string, back: string, c: char, rep: string)
    requires c !in front && c !in back
    ensures ReplaceAll(front + ([c] + back), c, rep) == front + (rep + back)
  {
    ReplaceAllAppend(front, [c] + back, c, rep);
    ReplaceAllAppend([c], back, c, rep);
    assert [c][1..] == "";
    assert ReplaceAll([c], c, rep) == rep + ReplaceAll("", c, rep);
  }

  /** A step of `BackslashMovesOutput`: the directory of the output. */
  lemma BackslashOutputDirname(s: string)
    requires s == "/a/b/c_OCRed.pdf"
    ensures Dirname(s) == "/a/b"
  {
    var d := "/a/b";
    var n := "c_OCRed.pdf";
    assert d[|d| - 1] != Sep;
    assert Sep !in n;
    assert n[0] != Sep;
    BackslashReplaced(d, n);
    JoinInserts(d, n, s);
    JoinSplits(d, n);
  }
}

=== FILE: settings.dfy ===
/** The settings record the window saves to and loads from its hidden JSON
    file, and the keyword options it passes to the OCR call. The file is an
    abstract map from keys to JSON values; its encoding is not modelled. */
module Settings {
  import opened Wrappers

  /** The entries of the language drop-down, in their display order. */
  const Languages: seq<string> := ["deu", "eng", "fra", "spa", "ita", "nld", "por", "rus", "chi_sim", "jpn"]

  /** The language used when the file has no "language" key. */
  const DefaultLanguage: string := "eng"

  /** The state of the window's path fields, check boxes and drop-down. */
  datatype Record = Record(
    inputFile: string,
    outputFile: string,
    deskew: bool,
    rotatePages: bool,
    forceOcr: bool,
    skipText: bool,
    removeBackground: bool,
    cleanFinal: bool,
    language: string,
    openOutput: bool,
    saveSettings: bool)

  /** The widgets as the window builds them, before settings are loaded:
      empty fields, nothing checked, the first language selected. */
  const Initial: Record := Record("", "", false, false, false, false, false, false, Languages[0], false, false)

  /** The keys the program writes and reads, one per field of the record. */
  datatype Key =
    | InputFile | OutputFile | Deskew | RotatePages | ForceOcr | SkipText
    | RemoveBackground | CleanFinal | Language | OpenOutput | SaveSettings

  /** The key's text in the JSON object. */
  function Name(k: Key): string {
    match k
    case InputFile => "input_file"
    case OutputFile => "output_file"
    case Deskew => "deskew"
    case RotatePages => "rotate_pages"
    case ForceOcr => "force_ocr"
    case SkipText => "skip_text"
    case RemoveBackground => "remove_background"
    case CleanFinal => "clean_final"
    case Language => "language"
    case OpenOutput => "open_output"
    case SaveSettings => "save_settings"
  }

  /** Distinct keys have distinct texts, so a map over `Key` is a faithful
      stand-in for the JSON object restricted to the eleven keys. */
  lemma NameIsInjective(a: Key, b: Key)
    requires a != b
    ensures Name(a) != Name(b)
  {
  }

  /** A JSON value as far as the loader distinguishes it. */
  datatype Value = Str(s: string) | Bool(b: bool) | OtherJson

  /** The settings file: absent, not a JSON object, or an object. Keys other
      than the eleven are never read, so the object is kept as a map over
      `Key`. */
  datatype SettingsFile = Missing | Malformed | Object(entries: map<Key, Value>)

  /** Why loading failed: the file is not a JSON object, or a key holds a
      value the widget setter refuses. */
  datatype LoadError = ParseError | WrongType(key: Key)

  const AllKeys: set<Key> := {
    InputFile, OutputFile, Deskew, RotatePages, ForceOcr, SkipText,
    RemoveBackground, CleanFinal, Language, OpenOutput, SaveSettings
  }

  /** The JSON value of the widget that `k` names. */
  function Field(s: Record, k: Key): Value {
    match k
    case InputFile => Str(s.inputFile)
    case OutputFile => Str(s.outputFile)
    case Deskew => Bool(s.deskew)
    case RotatePages => Bool(s.rotatePages)
    case ForceOcr => Bool(s.forceOcr)
    case SkipText => Bool(s.skipText)
    case RemoveBackground => Bool(s.removeBackground)
    case CleanFinal => Bool(s.cleanFinal)
    case Language => Str(s.language)
    case OpenOutput => Bool(s.openOutput)
    case SaveSettings => Bool(s.saveSettings)
  }

  /** `save_settings`: the object written to the file, one entry per key. */
  function Save(s: Record): (m: map<Key, Value>)
    ensures m.Keys == AllKeys
    ensures forall k :: k in m ==> if IsTextKey(k) then m[k].Str? else m[k].Bool?
  {
    map k | k in AllKeys :: Field(s, k)
  }

  /** The keys whose widget takes text; the others name check boxes. */
  predicate IsTextKey(k: Key) {
    k == InputFile || k == OutputFile || k == Language
  }

  /** True iff the widget `k` names accepts the value the object holds for
      it: a missing key is read as its default, which always fits; a text
      field or the drop-down takes a string, a check box a boolean. Any other
      value makes the setter raise. */
  predicate Accepts(m: map<Key, Value>, k: Key) {
    k !in m || (if IsTextKey(k) then m[k].Str? else m[k].Bool?)
  }

  /** `settings.get(key, default)` handed to a text setter that accepted it. */
  function TextOr(m: map<Key, Value>, k: Key, default: string): string {
    if k in m && m[k].Str? then m[k].s else default
  }

  /** `settings.get(key, False)` handed to a check box that accepted it. */
  function FlagOr(m: map<Key, Value>, k: Key): bool {
    k in m && m[k].Bool? && m[k].b
  }

  /** The order in which the loader reads the keys. */
  const LoadOrder: seq<Key> := [
    InputFile, OutputFile, Deskew, RotatePages, ForceOcr, SkipText,
    RemoveBackground, CleanFinal, Language, OpenOutput, SaveSettings
  ]

  /** The position of a key in `LoadOrder`. */
  function Rank(k: Key): (r: nat)
    ensures r < |LoadOrder| && LoadOrder[r] == k
  {
    match k
    case InputFile => 0
    case OutputFile => 1
    case Deskew => 2
    case RotatePages => 3
    case ForceOcr => 4
    case SkipText => 5
    case RemoveBackground => 6
    case CleanFinal => 7
    case Language => 8
    case OpenOutput => 9
    case SaveSettings => 10
  }

  /** `Rank` inverts `LoadOrder`: no key is read twice. */
  lemma RankOfLoadOrder(i: nat)
    requires i < |LoadOrder|
    ensures Rank(LoadOrder[i]) == i
  {
  }

  /** `setCurrentText` on the non-editable drop-down: a listed entry is
      selected, any other text leaves the selection as it was. */
  function SelectLanguage(current: string, requested: string): (r: string)
    ensures requested in Languages ==> r == requested
    ensures requested !in Languages ==> r == current
  {
    if requested in Languages then requested else current
  }

  /** `load_settings`: applies the file to the widgets' current state. The
      setters run in `LoadOrder`, and the first one handed a value of the
      wrong type raises. The exception leaves the constructor before the
      event loop starts, so the program ends with a traceback and handles
      no event; the widgets set before it do not matter and the result is
      just the error. */
  function Load(current: Record, file: SettingsFile): (r: Result<Record, LoadError>)
    ensures file.Missing? ==> r == Success(current)
    ensures file.Malformed? ==> r == Failure(ParseError)
    ensures file.Object? ==>
      (r.Success? <==> forall j :: 0 <= j < |LoadOrder| ==> Accepts(file.entries, LoadOrder[j]))
    ensures file.Object? && r.Failure? ==>
      && r.error.WrongType?
      && !Accepts(file.entries, r.error.key)
      && forall j :: 0 <= j < Rank(r.error.key) ==> Accepts(file.entries, LoadOrder[j])
    ensures r.Success? && current.language in Languages ==> r.value.language in Languages
  {
    match file
    case Missing => Success(current)
    case Malformed => Failure(ParseError)
    case Object(m) =>
      match FirstMatch(LoadOrder, k => !Accepts(m, k))
      case Some(i) =>
        RankOfLoadOrder(i);
        Failure(WrongType(LoadOrder[i]))
      case None =>
        Success(Loaded(current, m))
  }

  /** The widgets after every setter of `load_settings` has run on `m`. */
  function Loaded(current: Record, m: map<Key, Value>): Record {
    Record(
      TextOr(m, InputFile, ""),
      TextOr(m, OutputFile, ""),
      FlagOr(m, Deskew),
      FlagOr(m, RotatePages),
      FlagOr(m, ForceOcr),
      FlagOr(m, SkipText),
      FlagOr(m, RemoveBackground),
      FlagOr(m, CleanFinal),
      SelectLanguage(current.language, TextOr(m, Language, DefaultLanguage)),
      FlagOr(m, OpenOutput),
      FlagOr(m, SaveSettings))
  }

  /** An empty object gives the defaults `load_settings` passes to
      `settings.get`, whatever the widgets showed before. */
  lemma LoadEmptyGivesDefaults(current: Record)
    ensures Load(current, Object(map[])) == Success(Record("", "", false, false, false, false, false, false, "eng", false, false))
  {
  }

  /** Loading an object succeeds exactly when every widget accepts the value
      stored for it. */
  lemma LoadSucceedsIffAccepted(current: Record, m: map<Key, Value>)
    ensures Load(current, Object(m)).Success? <==> forall k :: Accepts(m, k)
  {
    if Load(current, Object(m)).Success? {
      forall k
        ensures Accepts(m, k)
      {
        assert LoadOrder[Rank(k)] == k;
      }
    }
  }

  /** The key an object fails on is the first rejected one in load order. */
  lemma LoadReportsFirstRejected(current: Record, m: map<Key, Value>, k: Key)
    requires !Accepts(m, k)
    requires forall j :: 0 <= j < Rank(k) ==> Accepts(m, LoadOrder[j])
    ensures Load(current, Object(m)) == Failure(WrongType(k))
  {
    var r := Load(current, Object(m));
    assert !Accepts(m, LoadOrder[Rank(k)]);
    assert r.Failure?;
    var e := r.error.key;
    assert Rank(e) <= Rank(k);
    assert !Accepts(m, LoadOrder[Rank(e)]);
    assert Rank(e) == Rank(k);
  }

  /** A saved object holds a value of the right type under every key. */
  lemma SavedIsAccepted(s: Record)
    ensures forall k :: Accepts(Save(s), k)
  {
  }

  /** What the loader falls back to for a missing key: empty paths, no box
      checked, and "eng" handed to the drop-down. */
  const Defaults: Record := Record("", "", false, false, false, false, false, false, DefaultLanguage, false, false)

  /** An object every widget accepts loads key by key: each widget other
      than the drop-down takes the value stored under its key, or its
      default when the key is missing; the drop-down is handed the stored
      language, or "eng", and selects it only if it lists it. */
  lemma LoadAccepted(current: Record, m: map<Key, Value>)
    requires forall k :: Accepts(m, k)
    ensures Load(current, Object(m)).Success?
    ensures forall k :: k != Language && k in m ==> Field(Load(current, Object(m)).value, k) == m[k]
    ensures forall k :: k != Language && k !in m ==> Field(Load(current, Object(m)).value, k) == Field(Defaults, k)
    ensures Load(current, Object(m)).value.language ==
      if Language in m && m[Language].Str? then SelectLanguage(current.language, m[Language].s)
      else SelectLanguage(current.language, DefaultLanguage)
  {
    LoadAcceptedIsLoaded(current, m);
    LoadedFields(current, m);
  }

  /** An accepted object loads into `Loaded`. */
  lemma LoadAcceptedIsLoaded(current: Record, m: map<Key, Value>)
    requires forall k :: Accepts(m, k)
    ensures Load(current, Object(m)) == Success(Loaded(current, m))
  {
    LoadSucceedsIffAccepted(current, m);
  }

  /** `Loaded` key by key, for an object every widget accepts. */
  lemma LoadedFields(current: Record, m: map<Key, Value>)
    requires forall k :: Accepts(m, k)
    ensures forall k :: k != Language && k in m ==> Field(Loaded(current, m), k) == m[k]
    ensures forall k :: k != Language && k !in m ==> Field(Loaded(current, m), k) == Field(Defaults, k)
    ensures Loaded(current, m).language ==
      if Language in m && m[Language].Str? then SelectLanguage(current.language, m[Language].s)
      else SelectLanguage(current.language, DefaultLanguage)
  {
    var r := Loaded(current, m);
    forall k | k != Language
      ensures k in m ==> Field(r, k) == m[k]
      ensures k !in m ==> Field(r, k) == Field(Defaults, k)
    {
      assert Accepts(m, k);
      LoadedField(current, m, k);
    }
  }

  /** One key of `LoadedFields`. */
  lemma LoadedField(current: Record, m: map<Key, Value>, k: Key)
    requires k != Language && Accepts(m, k)
    ensures k in m ==> Field(Loaded(current, m), k) == m[k]
    ensures k !in m ==> Field(Loaded(current, m), k) == Field(Defaults, k)
  {
    match k
    case InputFile =>
    case OutputFile =>
    case Deskew =>
    case RotatePages =>
    case ForceOcr =>
    case SkipText =>
    case RemoveBackground =>
    case CleanFinal =>
    case OpenOutput =>
    case SaveSettings =>
  }

  /** Loading a saved object restores every field; the language goes
      through the drop-down. */
  lemma LoadSaved(current: Record, s: Record)
    ensures Load(current, Object(Save(s))) == Success(s.(language := SelectLanguage(current.language, s.language)))
  {
    SavedIsAccepted(s);
    LoadAcceptedIsLoaded(current, Save(s));
    SavedFields(s);
  }

  /** Each field reads back from the saved object as it was saved. */
  lemma SavedFields(s: Record)
    ensures TextOr(Save(s), InputFile, "") == s.inputFile
    ensures TextOr(Save(s), OutputFile, "") == s.outputFile
    ensures FlagOr(Save(s), Deskew) == s.deskew
    ensures FlagOr(Save(s), RotatePages) == s.rotatePages
    ensures FlagOr(Save(s), ForceOcr) == s.forceOcr
    ensures FlagOr(Save(s), SkipText) == s.skipText
    ensures FlagOr(Save(s), RemoveBackground) == s.removeBackground
    ensures FlagOr(Save(s), CleanFinal) == s.cleanFinal
    ensures TextOr(Save(s), Language, DefaultLanguage) == s.language
    ensures FlagOr(Save(s), OpenOutput) == s.openOutput
    ensures FlagOr(Save(s), SaveSettings) == s.saveSettings
  {
  }

  /** Saving and loading again restores every field, provided the language
      is one the drop-down lists. */
  lemma SaveLoadRoundTrip(current: Record, s: Record)
    requires s.language in Languages
    ensures Load(current, Object(Save(s))) == Success(s)
  {
    LoadSaved(current, s);
  }

  /** A saved language the drop-down does not list is not restored: the
      selection stays what it was. */
  lemma SaveLoadUnlistedLanguage(current: Record, s: Record)
    requires s.language !in Languages
    ensures Load(current, Object(Save(s))) == Success(s.(language := current.language))
  {
    LoadSaved(current, s);
  }

  // ----- Options handed to the OCR call -----

  const OptionKeys: set<Key> := {Deskew, Language, RotatePages, ForceOcr, SkipText, RemoveBackground, CleanFinal}

  /** `collect_options`: the keyword arguments of the OCR call: the saved
      record without the two paths and the two window preferences, each
      option under the key it is saved with. */
  function CollectOptions(s: Record): (m: map<Key, Value>)
    ensures m.Keys == AllKeys - {InputFile, OutputFile, OpenOutput, SaveSettings}
    ensures forall k :: k in m ==> k in Save(s) && m[k] == Save(s)[k]
  {
    map k | k in OptionKeys :: Field(s, k)
  }
}

=== FILE: text.dfy ===
/** The handful of Python string operations the program relies on, each with
    a contract that characterises its result independently of how it is
    computed: `str.rfind`, `str.endswith`, `str.lower`, `str.replace` with a
    one-character pattern and `str.rstrip` with a one-character set. */
module TextOps {

  /** True iff every character of `s` is `c` (vacuously true of ""). */
  predicate AllChars(s: string, c: char) {
    forall i :: 0 <= i < |s| ==> s[i] == c
  }

  predicate StartsWith(s: string, prefix: string) {
    |prefix| <= |s| && s[..|prefix|] == prefix
  }

  /** Python's `s.endswith(suffix)`. */
  predicate EndsWith(s: string, suffix: string) {
    |suffix| <= |s| && s[|s| - |suffix|..] == suffix
  }

  /** Python's `s.rfind(c)` for a one-character needle: the index of the
      last `c` in `s`, or -1 when there is none. */
  function LastIndexOf(s: string, c: char): (r: int)
    ensures -1 <= r < |s|
    ensures r >= 0 ==> s[r] == c
    ensures forall k :: r < k < |s| ==> s[k] != c
  {
    if |s| == 0 then -1
    else if s[|s| - 1] == c then |s| - 1
    else LastIndexOf(s[..|s| - 1], c)
  }

  /** Where the last `c` lies in a concatenation. */
  lemma LastIndexOfAppend(a: string, b: string, c: char)
    ensures c in b ==> LastIndexOf(a + b, c) == |a| + LastIndexOf(b, c)
    ensures c !in b ==> LastIndexOf(a + b, c) == LastIndexOf(a, c)
  {
    var s := a + b;
    var r := LastIndexOf(s, c);
    if c in b {
      var rb := LastIndexOf(b, c);
      var j :| 0 <= j < |b| && b[j] == c;
      assert s[|a| + j] == c;
      assert rb >= 0;
      assert s[|a| + rb] == c;
    } else {
      var ra := LastIndexOf(a, c);
      forall k | |a| <= k < |s|
        ensures s[k] != c
      {
        assert s[k] == b[k - |a|];
      }
      if ra >= 0 {
        assert s[ra] == c;
      }
      if r >= 0 {
        assert r < |a|;
        assert a[r] == c;
      }
    }
  }

  /** ASCII lower-casing of one character. */
  function LowerChar(ch: char): (r: char)
    ensures 'A' <= ch <= 'Z' ==> 'a' <= r <= 'z' && r as int - ch as int == 32
    ensures !('A' <= ch <= 'Z') ==> r == ch
  {
    if 'A' <= ch <= 'Z' then (ch as int + 32) as char else ch
  }

  /** Python's `s.lower()`, restricted to the ASCII letters. */
  function Lower(s: string): (r: string)
    ensures |r| == |s|
    ensures forall i :: 0 <= i < |s| ==> r[i] == LowerChar(s[i])
  {
    seq(|s|, i requires 0 <= i < |s| => LowerChar(s[i]))
  }

  /** Python's `s.replace(c, rep)` for a one-character pattern: every `c` is
      replaced by `rep`, every other character is kept, in order. */
  function ReplaceAll(s: string, c: char, rep: string): (r: string)
    ensures c !in s ==> r == s
    ensures c !in rep ==> c !in r
    ensures forall ch :: ch in r ==> ch in rep || (ch in s && ch != c)
  {
    if |s| == 0 then ""
    else
      var head := if s[0] == c then rep else [s[0]];
      head + ReplaceAll(s[1..], c, rep)
  }

  /** Replacement works piecewise: it distributes over concatenation. */
  lemma {:induction false} ReplaceAllAppend(a: string, b: string, c: char, rep: string)
    ensures ReplaceAll(a + b, c, rep) == ReplaceAll(a, c, rep) + ReplaceAll(b, c, rep)
    decreases |a|
  {
    if |a| == 0 {
      assert a + b == b;
    } else {
      assert (a + b)[0] == a[0];
      assert (a + b)[1..] == a[1..] + b;
      ReplaceAllAppend(a[1..], b, c, rep);
    }
  }

  /** A tail free of `c` survives replacement unchanged. */
  lemma ReplaceAllKeepsSuffix(s: string, t: string, c: char, rep: string)
    requires EndsWith(s, t) && c !in t
    ensures EndsWith(ReplaceAll(s, c, rep), t)
  {
    var h := s[..|s| - |t|];
    assert s == h + t;
    ReplaceAllAppend(h, t, c, rep);
    var a := ReplaceAll(h, c, rep);
    assert (a + t)[|a + t| - |t|..] == t;
  }

  /** A string ending in `a + t` ends in `t`. */
  lemma EndsWithConcat(s: string, a: string, t: string)
    requires EndsWith(s, a + t)
    ensures EndsWith(s, t)
  {
    assert s[|s| - |t|..] == (a + t)[|a|..];
  }

  /** Python's `s.rstrip(c)` for a one-character set: the longest prefix of
      `s` that leaves only `c`s behind and does not itself end in `c`. */
  function RStrip(s: string, c: char): (r: string)
    ensures |r| <= |s| && r == s[..|r|]
    ensures AllChars(s[|r|..], c)
    ensures r == "" || r[|r| - 1] != c
  {
    if |s| > 0 && s[|s| - 1] == c then RStrip(s[..|s| - 1], c) else s
  }

  /** Appending a run of `c`s does not change what `RStrip` keeps. */
  lemma {:induction false} RStripAppendStripped(s: string, t: string, c: char)
    requires AllChars(t, c)
    ensures RStrip(s + t, c) == RStrip(s, c)
    decreases |t|
  {
    if |t| == 0 {
      assert s + t == s;
    } else {
      assert (s + t)[..|s + t| - 1] == s + t[..|t| - 1];
      RStripAppendStripped(s, t[..|t| - 1], c);
    }
  }
}

=== FILE: worker.dfy ===
/** `OCRWorker`: the background job that runs the external OCR call with its
    standard error redirected into a capture buffer, and turns the outcome
    into a success flag and a display message. The buffer is a class
    attribute of the worker, so it outlives a single run; `clear_error_buffer`
    empties it before each call. The call itself is not modelled: its
    outcome, including what it wrote to standard error, is a parameter. */
module Worker {
  import opened TextOps

  /** An in-memory text stream with Python `io.StringIO` semantics for the
      operations the worker uses: its text and the current position. */
  datatype CaptureBuffer = CaptureBuffer(contents: string, position: nat)

  const Fresh: CaptureBuffer := CaptureBuffer("", 0)

  /** `truncate(n)`: drop everything from `n` on; the position stays. */
  function Truncate(b: CaptureBuffer, n: nat): (r: CaptureBuffer)
    ensures r.position == b.position
    ensures |r.contents| == if n < |b.contents| then n else |b.contents|
    ensures StartsWith(b.contents, r.contents)
  {
    if n < |b.contents| then b.(contents := b.contents[..n]) else b
  }

  /** `seek(p)`. */
  function Seek(b: CaptureBuffer, p: nat): CaptureBuffer {
    b.(position := p)
  }

  /** `write(w)`: overwrite from the position on, padding with NULs when the
      position lies beyond the end; the position moves past `w`. Writing the
      empty string returns at once and changes nothing, not even the
      padding. */
  function Write(b: CaptureBuffer, w: string): (r: CaptureBuffer)
    ensures w == "" ==> r == b
    ensures r.position == b.position + |w|
    ensures w != "" ==> |r.contents| >= r.position && r.contents[b.position..r.position] == w
    ensures b.position <= |b.contents| ==> r.contents[..b.position] == b.contents[..b.position]
    ensures b.position > |b.contents| ==> r.contents[..|b.contents|] == b.contents
    ensures w != "" ==> forall k :: |b.contents| <= k < b.position ==> r.contents[k] == '\0'
    ensures w != "" ==> |r.contents| == if r.position > |b.contents| then r.position else |b.contents|
    ensures w != "" && r.position < |b.contents| ==> r.contents[r.position..] == b.contents[r.position..]
  {
    if w == "" then b
    else
      var gap := if b.position > |b.contents| then b.position - |b.contents| else 0;
      var padded := b.contents + seq(gap, _ => '\0');
      var rest := if b.position + |w| < |padded| then padded[b.position + |w|..] else "";
      CaptureBuffer(padded[..b.position] + w + rest, b.position + |w|)
  }

  /** The writes a run makes to standard error, in order. */
  function WriteAll(b: CaptureBuffer, chunks: seq<string>): CaptureBuffer
    decreases |chunks|
  {
    if |chunks| == 0 then b else WriteAll(Write(b, chunks[0]), chunks[1..])
  }

  function Concat(chunks: seq<string>): string
    decreases |chunks|
  {
    if |chunks| == 0 then "" else chunks[0] + Concat(chunks[1..])
  }

  /** `clear_error_buffer`: `truncate(0)` followed by `seek(0)`. */
  function ClearErrorBuffer(b: CaptureBuffer): (r: CaptureBuffer)
    ensures r == Fresh
  {
    Seek(Truncate(b, 0), 0)
  }

  /** `getvalue()`. */
  function GetValue(b: CaptureBuffer): string {
    b.contents
  }

  /** Writing to a buffer whose position is at its end appends. */
  lemma WriteAtEnd(b: CaptureBuffer, w: string)
    requires b.position == |b.contents|
    ensures Write(b, w) == CaptureBuffer(b.contents + w, |b.contents| + |w|)
  {
    var padded := b.contents + seq(0, _ => '\0');
    assert padded == b.contents;
    assert padded[..b.position] == b.contents;
  }

  /** Starting from an emptied buffer, the captured text is exactly what was
      written, whatever the buffer held before. */
  lemma {:induction false} WriteAllAppends(b: CaptureBuffer, chunks: seq<string>)
    requires b.position == |b.contents|
    ensures WriteAll(b, chunks) == CaptureBuffer(b.contents + Concat(chunks), |b.contents + Concat(chunks)|)
    decreases |chunks|
  {
    if |chunks| > 0 {
      var b' := CaptureBuffer(b.contents + chunks[0], |b.contents| + |chunks[0]|);
      WriteAtEnd(b, chunks[0]);
      assert WriteAll(b, chunks) == WriteAll(b', chunks[1..]);
      WriteAllAppends(b', chunks[1..]);
      assert b'.contents + Concat(chunks[1..]) == b.contents + Concat(chunks);
    }
  }

  /** Truncating without seeking back would leave the position where the
      previous run ended, and the next run's text would follow a run of NULs:
      the `seek(0)` in `clear_error_buffer` is what prevents that. */
  lemma TruncateAloneWouldPad(b: CaptureBuffer, w: string)
    requires b.position > 0
    ensures w != "" ==> Write(Truncate(b, 0), w).contents[0] == '\0'
    ensures Write(ClearErrorBuffer(b), w).contents == w
  {
    WriteAtEnd(ClearErrorBuffer(b), w);
  }

  // ----- Message formatting -----

  const FontOpen: string := "<font color=\"blue\" face=\"Courier New, monospace\">"
  const FontClose: string := "</font>"
  const CompletionNotice: string := "OCR process completed successfully!"
  const Nbsp: string := "&nbsp;"
  const LineBreak: string := "<br>"

  /** The escaping the success path applies, as the source writes it: first
      every space becomes `&nbsp;`, then every newline becomes `<br>`. */
  function Escape(s: string): (r: string)
    ensures ' ' !in r && '\n' !in r
  {
    ReplaceAll(ReplaceAll(s, ' ', Nbsp), '\n', LineBreak)
  }

  function EscapeChar(ch: char): string {
    if ch == ' ' then Nbsp else if ch == '\n' then LineBreak else [ch]
  }

  /** A single-pass reference definition of the escaping: each character is
      replaced by its escape independently. */
  function EscapeEach(s: string): (r: string)
    ensures ' ' !in r && '\n' !in r
    ensures |r| >= |s|
    decreases |s|
  {
    if |s| == 0 then "" else EscapeChar(s[0]) + EscapeEach(s[1..])
  }

  /** The two chained replacements agree with the single-pass escaping; in
      particular the escaped text holds no raw space or newline. */
  lemma {:induction false} EscapeIsPerCharacter(s: string)
    ensures Escape(s) == EscapeEach(s)
    decreases |s|
  {
    if |s| > 0 {
      var once := if s[0] == ' ' then Nbsp else [s[0]];
      assert ReplaceAll(s, ' ', Nbsp) == once + ReplaceAll(s[1..], ' ', Nbsp);
      ReplaceAllAppend(once, ReplaceAll(s[1..], ' ', Nbsp), '\n', LineBreak);
      assert '\n' !in Nbsp;
      assert ReplaceAll(once, '\n', LineBreak) == EscapeChar(s[0]) by {
        if s[0] != ' ' {
          assert once == [s[0]];
          assert once[1..] == "";
        }
      }
      EscapeIsPerCharacter(s[1..]);
    }
  }

  /** What the success path shows: the escaped capture in a monospace font,
      then the completion notice. */
  function SuccessMessage(captured: string): (r: string)
    ensures r == FontOpen + EscapeEach(captured) + FontClose + CompletionNotice
    ensures |r| >= |FontOpen| + |FontClose + CompletionNotice|
    ensures StartsWith(r, FontOpen) && EndsWith(r, FontClose + CompletionNotice)
    ensures var escaped := r[|FontOpen|..|r| - |FontClose + CompletionNotice|];
      ' ' !in escaped && '\n' !in escaped
  {
    var escaped := Escape(captured);
    EscapeIsPerCharacter(captured);
    var r := FontOpen + escaped + (FontClose + CompletionNotice);
    assert r[..|FontOpen|] == FontOpen;
    assert r[|FontOpen|..|r| - |FontClose + CompletionNotice|] == escaped;
    assert r[|r| - |FontClose + CompletionNotice|..] == FontClose + CompletionNotice;
    r
  }

  /** What the failure path reports: the exception's text followed by the
      capture with its trailing newlines removed. */
  function FailureMessage(error: string, captured: string): (r: string)
    ensures StartsWith(r, error) && |r| <= |error| + |captured|
  {
    var r := error + RStrip(captured, '\n');
    assert r[..|error|] == error;
    r
  }

  /** The failure message is the error text followed by the capture up to
      its trailing newlines: what is dropped is newlines only, and what is
      kept does not end in one. */
  lemma FailureMessageShape(error: string, captured: string)
    ensures StartsWith(FailureMessage(error, captured), error)
    ensures var kept := FailureMessage(error, captured)[|error|..];
      && StartsWith(captured, kept)
      && AllChars(captured[|kept|..], '\n')
      && (kept == "" || kept[|kept| - 1] != '\n')
  {
    var m := FailureMessage(error, captured);
    assert m[|error|..] == RStrip(captured, '\n');
  }

  // ----- One run -----

  /** How the external call ended. `ImportFailed` is an exception from the
      import of the OCR library, raised before the buffer is cleared;
      `Raised` is an exception from the call after it wrote `chunks` to
      standard error; `Returned` is a normal return. */
  datatype CallOutcome =
    | ImportFailed(error: string)
    | Raised(error: string, chunks: seq<string>)
    | Returned(chunks: seq<string>)

  /** The finished signal's payload, with the buffer as the run leaves it. */
  datatype Completion = Completion(buffer: CaptureBuffer, success: bool, message: string)

  /** `OCRWorker.run`. */
  function Run(b: CaptureBuffer, outcome: CallOutcome): (r: Completion)
    ensures r.success <==> outcome.Returned?
    ensures outcome.ImportFailed? ==> r.buffer == b
    ensures !outcome.ImportFailed? ==>
      r.buffer == CaptureBuffer(Concat(outcome.chunks), |Concat(outcome.chunks)|)
    ensures r.success ==>
      r.message == FontOpen + EscapeEach(GetValue(r.buffer)) + FontClose + CompletionNotice
    ensures !r.success ==>
      r.message == FailureMessage(outcome.error, if outcome.ImportFailed? then GetValue(b) else Concat(outcome.chunks))
  {
    match outcome
    case ImportFailed(e) =>
      Completion(b, false, FailureMessage(e, GetValue(b)))
    case Raised(e, chunks) =>
      var b' := WriteAll(ClearErrorBuffer(b), chunks);
      WriteAllAppends(ClearErrorBuffer(b), chunks);
      Completion(b', false, FailureMessage(e, GetValue(b')))
    case Returned(chunks) =>
      var b' := WriteAll(ClearErrorBuffer(b), chunks);
      WriteAllAppends(ClearErrorBuffer(b), chunks);
      var m := SuccessMessage(GetValue(b'));
      EscapeIsPerCharacter(GetValue(b'));
      Completion(b', true, m)
  }

  /** Once the import has succeeded, a run's result does not depend on what
      the buffer held before: the reset happens before the call. */
  lemma RunForgetsPreviousBuffer(b1: CaptureBuffer, b2: CaptureBuffer, outcome: CallOutcome)
    requires !outcome.ImportFailed?
    ensures Run(b1, outcome) == Run(b2, outcome)
  {
  }

  /** When the import fails the reset is skipped, so text captured by an
      earlier run reaches the new error message. */
  lemma ImportFailureReportsStaleCapture()
    ensures Run(CaptureBuffer("old\n", 4), ImportFailed("E")).message == "Eold"
  {
    assert RStrip("old\n", '\n') == "old";
  }
}

=== FILE: wrappers.dfy ===
/** Option and Result, the failure-compatible datatypes the rest of the model
    uses for "no match" and for errors the program raises, and the search for
    the first element that satisfies a test. */
module Wrappers {

  datatype Option<+T> = None | Some(value: T)

  datatype Result<+R, +E> = Success(value: R) | Failure(error: E) {

    predicate IsFailure() {
      Failure?
    }

    function PropagateFailure<U>(): Result<U, E>
      requires Failure?
    {
      Failure(error)
    }

    function Extract(): R
      requires Success?
    {
      value
    }
  }

  /** The index of the first element satisfying `f`, if any. */
  function FirstMatch<T>(xs: seq<T>, f: T -> bool): (r: Option<nat>)
    ensures r.Some? ==> r.value < |xs| && f(xs[r.value])
    ensures r.Some? ==> forall j :: 0 <= j < r.value ==> !f(xs[j])
    ensures r.None? <==> forall j :: 0 <= j < |xs| ==> !f(xs[j])
    decreases |xs|
  {
    if |xs| == 0 then None
    else if f(xs[0]) then Some(0)
    else match FirstMatch(xs[1..], f)
      case None => None
      case Some(i) =>
        assert forall j :: 1 <= j <= i ==> xs[j] == xs[1..][j - 1];
        Some(i + 1)
  }

  /** A match with no match before it is what `FirstMatch` finds. */
  lemma FirstMatchIsFirst<T>(xs: seq<T>, f: T -> bool, i: nat)
    requires i < |xs| && f(xs[i])
    requires forall j :: 0 <= j < i ==> !f(xs[j])
    ensures FirstMatch(xs, f) == Some(i)
  {
  }
}
